=== FILE: README.md ===
# Speech-assessment scoring, modelled in Dafny

This project models the deterministic core of a small speech-assessment
toolkit. A spoken answer is transcribed, checked for grammar and force-aligned
against its transcript. The toolkit then turns the results into scores. The
model covers three parts of it:

- **Alignment scoring (`apfg.py`).**
  - The grammar score is `max(0, 100 - 5·n)` for `n` grammar issues.
  - Fluency is the share of non-empty word intervals that last at most 1.5 s.
  - Accuracy is the share of non-silence phone intervals that last at most 0.2 s.
  - Each non-silence phone gets a pronunciation score, and `evaluate` averages those scores.
  - A missing TextGrid gives `(0, 0)` and an empty score list.
- **The sentence-based fluency heuristic (`whisper_run.py`, `rate_fluency`).**
  It splits a transcript at `.`, `?`, `!` and newline and keeps the pieces
  that are longer than three characters once stripped. It counts kept
  sentences with more than 20 words as run-ons and scores `10 - min(runOns, 10)`.
- **Line scraping (`speech.py`).**
  - `read_reference_text` returns the stripped lines of a file.
  - `read_mfa_phonemes` finds the first `"intervals"` in a TextGrid file.
    From there on it keeps the stripped lines whose lower-cased form
    contains `"phoneme"`.

Modules:

- `Wrappers` holds `Option`.
- `Seqs` holds filtering, mapping and summing over sequences.
- `Text` models the Python string built-ins the code relies on, as specified
  functions over `string`:
  - `str.isspace`, `str.strip()` and `str.split()`;
  - `re.split` on single characters and `str.splitlines()`;
  - iterating over the lines of a text file;
  - `str.lower()` and `str.find`.
- `Apfg`, `WhisperRun` and `Speech` model the three source files.

Interface choices:

- A file that may not exist is an `Option` of its contents.
- A parsed TextGrid is a sequence of tiers. Each tier is a sequence of
  `Interval(mark, minTime, maxTime)`. Times and scores are exact `real`s.
- `phoneme_wise_scores`, `read_reference_text` and `read_mfa_phonemes` work by
  appending to a list in a loop, so they are methods with loops.
  `PhonemeWiseScores` and `ReadMfaPhonemes` are proved equal to recursive
  specification functions (`PhoneScores`, `MfaPhonemes`) whose properties are
  lemmas. `ReadReferenceText` is characterised line by line against
  `FileLines`: one entry per line, each the stripped line.
- The grammar score, fluency, accuracy and `rate_fluency` are expressions
  and comprehensions in the source, so they are functions here.

The two tiers are counted differently. On the word tier only empty marks are
excluded (`apfg.py:103-104`), so `"sil"` and `"sp"` words count. The phone
tier also excludes `"sil"` and `"sp"` (`apfg.py:106-107`, `apfg.py:133`).
`IsCountedWord` and `IsCountedPhone` keep that asymmetry.

## Model

| member | source | states |
|---|---|---|
| `Apfg.GrammarScore` | apfg.py:56 | The score lies in [0, 100]. It is 100 exactly when there are no issues and 0 exactly when there are 20 or more. Below 20, the score plus 5 points per issue is 100. |
| `Apfg.GrammarScoreAntitone` | apfg.py:56 | More grammar issues never give a higher score. |
| `Apfg.GrammarExample` | apfg.py:56 | No issues score 100, and five issues score 75. |
| `Apfg.IsCountedWord` | apfg.py:103 | Definition only: a word interval counts when its stripped mark is not empty. |
| `Apfg.CountedWordHasText` | apfg.py:103 | A word interval counts exactly when its mark holds a non-whitespace character. So "sil" and "sp" words count. |
| `Apfg.TotalWords` | apfg.py:103 | The number of counted (non-empty) word intervals, never more than the intervals of the tier. |
| `Apfg.NoCountedWords` | apfg.py:103 | No word is counted exactly when every word interval's mark is blank. |
| `Apfg.SlowWords` | apfg.py:103-104 | The slow words, those longer than 1.5 s, are never more than the counted words. |
| `Apfg.PercentGood` | apfg.py:109-110 | `max(0, 100 - bad/total*100)` with a zero guard. It lies in [0, 100] and is 0 when nothing was counted. It is 100 when nothing is bad and 0 when everything is. Otherwise it is the share of good units. |
| `Apfg.PercentGoodAntitone` | apfg.py:109-110 | More bad units out of the same total never give a higher percentage. |
| `Apfg.Fluency` | apfg.py:103-109 | Fluency lies in [0, 100] and is 0 for a tier with no counted word. It is 100 when no counted word is slow and 0 when all are. Otherwise it is 100·(total − slow)/total. |
| `Apfg.IsCountedPhone` | apfg.py:106 | Definition only: a phone interval counts when its stripped mark is not "", "sil" or "sp" (also the `continue` test at apfg.py:133). |
| `Apfg.TotalPhones` | apfg.py:106 | The number of counted (non-silence) phone intervals, never more than the intervals of the tier. |
| `Apfg.NoCountedPhones` | apfg.py:106 | No phone is counted exactly when every phone interval is blank, "sil" or "sp". |
| `Apfg.LongPhones` | apfg.py:106-107 | The long phones, non-silence and longer than 0.2 s, are never more than the counted phones. |
| `Apfg.Accuracy` | apfg.py:106-110 | Accuracy lies in [0, 100] and is 0 for a tier with no counted phone. It is 100 when no phone is long and 0 when all are. Otherwise it is 100·(total − long)/total. |
| `Apfg.AnalyzeAlignment` | apfg.py:92-114 | A missing TextGrid gives (0, 0). Otherwise the result is the fluency of tier 0 and the accuracy of tier 1, both in [0, 100]. |
| `Apfg.FluencyExample` | apfg.py:103-109 | "hello" at 0.5 s and "world" at 1.8 s: one of two words is slow, so fluency is 50. |
| `Apfg.AccuracyExample` | apfg.py:106-110 | Silence, a 0.06 s phone and a 0.24 s phone: one of two counted phones is long, so accuracy is 50. |
| `Apfg.PhoneScore` | apfg.py:136-139 | The per-phone score lies in [0, 100]. It is 100 exactly at the ideal 0.06 s and 0 exactly at a deviation of 0.1 s or more. In between it falls linearly, 1000 points per second of deviation. |
| `Apfg.PhoneScoreCloserIsBetter` | apfg.py:136-139 | A duration closer to 0.06 s never scores lower. |
| `Apfg.PhoneScores` | apfg.py:129-140 | There is exactly one score per counted (non-silence) phone. |
| `Apfg.PhoneScoresAt` | apfg.py:129-140 | The k-th score is the score of the k-th non-silence phone, in tier order. Silence contributes nothing. |
| `Apfg.PhoneScoresBounded` | apfg.py:136-140 | Every emitted score lies in [0, 100]. |
| `Apfg.PhoneScoresExample` | apfg.py:129-140 | For silence, 0.06 s and 0.24 s, the scores are [100, 0]. |
| `Apfg.PhonemeWiseScores` | apfg.py:117-151 | The loop returns the empty list for a missing TextGrid. Otherwise it returns exactly the scores of the non-silence phones of tier 1, in order, each in [0, 100]. |
| `Apfg.Mean` | apfg.py:162 | The mean is 0 for the empty list. Otherwise the mean times the count is the sum. Scores in [0, 100] give a mean in [0, 100]. |
| `Apfg.MeanAtCeiling` | apfg.py:162 | With no score above 100, the mean is 100 exactly when there is a score and every score is 100. |
| `Apfg.PronunciationPerfect` | apfg.py:129-162 | The pronunciation score is 100 exactly when some phone is counted and every counted phone lasts exactly 0.06 s. |
| `Apfg.PronunciationExample` | apfg.py:129-162 | For silence, 0.06 s and 0.24 s, the pronunciation score is 50. |
| `Apfg.Evaluate` | apfg.py:154-163 | The result holds the grammar score of the issue count, the fluency and accuracy of `analyze_alignment`, and the mean of the phone scores. All lie in [0, 100]. A missing TextGrid gives zero fluency, accuracy and pronunciation. |
| `Seqs.Filter` | apfg.py:103 | The kept elements are exactly the elements that pass the test. There are never more of them than inputs. |
| `Seqs.FilterEmpty` | apfg.py:103-107 | The filter keeps nothing exactly when no element passes the test. |
| `Seqs.FilterAppend` | whisper_run.py:13 | Filtering a concatenation filters each part, in order. |
| `Seqs.FilterStrongerIsShorter` | apfg.py:103-107 | A test implied by another keeps at least as many elements. |
| `Seqs.Sum` | apfg.py:145 | Definition only, no contract of its own: Python's `sum`, adding left to right as Python does; only the recursion takes the last element off (also used at apfg.py:162). Its bounds are the next two rows. |
| `Seqs.SumBounds` | apfg.py:162 | Elements in [0, hi] have a sum in [0, n·hi]. |
| `Seqs.SumAtCeiling` | apfg.py:162 | With no element above hi, the sum reaches n·hi exactly when every element is hi. |
| `Text.IsSpace` | speech.py:10 | Definition only: Python's `str.isspace` on one character, written out by code point. |
| `Text.Strip` | speech.py:10 | The result is empty exactly when the text is all whitespace. Otherwise it starts and ends with a non-whitespace character. |
| `Text.StripSurrounds` | speech.py:10 | The result is a slice of the text. What is removed on either side is whitespace and nothing else. |
| `Text.StripIdempotent` | speech.py:37 | Stripping twice is stripping once. |
| `Text.SplitOn` | whisper_run.py:8 | Splitting at single separator characters gives one more piece than there are separators. The last piece is empty exactly when the text is empty or ends in a separator. |
| `Text.SplitOnPiecesHaveNoSep` | whisper_run.py:8 | No piece contains a separator. |
| `Text.SplitOnAtSeparator` | whisper_run.py:8 | The pieces of `a + sep + b` are the pieces of `a` followed by those of `b`. |
| `Text.LinesBy` | speech.py:34 | Cutting text into lines gives one line per break, plus one unless the text is empty or ends in a break. No line contains a break. |
| `Text.IsLineBreak` | speech.py:34 | Definition only: the characters at which `str.splitlines()` ends a line. |
| `Text.SplitLines` | speech.py:34 | No line returned by `splitlines` contains a line break. |
| `Text.SplitLinesRoundTrip` | speech.py:34 | Lines joined by line breaks are split back into the same lines. |
| `Text.FileLines` | speech.py:9 | A text file yields one line per newline, plus one for unterminated trailing text. No line contains a newline. |
| `Text.FileLinesRoundTrip` | speech.py:8-10 | A file written line by line is read back as the same lines. |
| `Text.Words` | whisper_run.py:13 | Words are non-empty and contain no whitespace. Text starting with a non-space character has that character as its first word's first character. Words are separated, so n words need at least 2n − 1 characters. |
| `Text.WordsAtSpace` | whisper_run.py:13 | A whitespace character separates the words on its two sides. |
| `Text.WordsOfOneRun` | whisper_run.py:13 | A run without whitespace is one word, and whitespace alone is no word. |
| `Text.LowerChar` | speech.py:36 | An ASCII capital becomes the letter 32 code points higher, a lower-case ASCII letter. Every other character is unchanged. |
| `Text.Lower` | speech.py:36 | Lower-casing keeps the length and maps each character on its own. |
| `Text.FindFrom` | speech.py:25 | The result is the least index at or after `start` where the pattern occurs, or None when there is none. |
| `Text.Find` | speech.py:25 | The result is the first occurrence of the pattern, or None (Python's -1) when there is none. |
| `Text.Contains` | speech.py:36 | `pat in s` holds exactly when the pattern occurs at some index. |
| `Text.ContainsInWindow` | speech.py:36 | When every occurrence of a pattern lies inside a window of the text, the window contains the pattern exactly when the text does. |
| `Text.ContainsIgnoresSurroundingSpace` | speech.py:36-37 | Whitespace around a text does not change whether its lower-cased form contains a non-empty pattern without whitespace. |
| `WhisperRun.IsSentenceEnd` | whisper_run.py:8 | Definition only: the characters `.`, `?`, `!` and newline that the pattern splits at. |
| `WhisperRun.IsComplete` | whisper_run.py:9 | Definition only: a piece is kept when it is longer than 3 characters once stripped. |
| `WhisperRun.Sentences` | whisper_run.py:8 | The transcript splits into one more piece than it has `.`, `?`, `!` and newline characters. No piece contains one. |
| `WhisperRun.CompleteSentences` | whisper_run.py:9 | At most one kept sentence per piece, each longer than 3 characters. |
| `WhisperRun.CompleteSentencesAsComprehension` | whisper_run.py:9 | The kept sentences are the stripped pieces whose stripped length exceeds 3, in the order of the pieces. |
| `WhisperRun.CompleteSentencesAppend` | whisper_run.py:9 | Keeping sentences distributes over concatenation, so their order is kept. |
| `WhisperRun.CompleteSentencesOfOne` | whisper_run.py:9 | A single piece is kept, stripped, exactly when its stripped length exceeds 3. |
| `WhisperRun.IsRunOn` | whisper_run.py:13 | A run-on sentence has more than 20 words, so it is more than 40 characters long. |
| `WhisperRun.RunOnCount` | whisper_run.py:13 | There are never more run-ons than kept sentences. There are none exactly when no kept sentence has more than 20 words. |
| `WhisperRun.ScoreFromRunOns` | whisper_run.py:16 | The score lies in [0, 10]. It is 10 exactly when there is no run-on and 0 exactly when there are 10 or more. Below 10, score plus run-ons is 10. |
| `WhisperRun.ScoreFromRunOnsAntitone` | whisper_run.py:16 | More run-on sentences never give a higher score. |
| `WhisperRun.RateFluency` | whisper_run.py:5-18 | The score lies in [0, 10]. It is 10 exactly when no kept sentence is a run-on and 0 exactly when at least 10 are. |
| `WhisperRun.RateFluencyEmpty` | whisper_run.py:5-18 | An empty transcript scores 10. |
| `WhisperRun.RunOnsAtSentenceEnd` | whisper_run.py:8-13 | Joining two transcripts at a sentence end adds their run-on counts. |
| `WhisperRun.RateFluencyMoreSentences` | whisper_run.py:5-18 | Adding sentences before or after a transcript never raises its score. |
| `Speech.ReadReferenceText` | speech.py:4-13 | A missing file gives the empty list. Otherwise there is one entry per line of the file, in order, each the stripped line; blank lines give "". |
| `Speech.MentionsPhoneme` | speech.py:36 | Definition only: a line is taken when its lower-cased form contains "phoneme". |
| `Speech.PhonemeLines` | speech.py:34-37 | At most one entry per line. |
| `Speech.PhonemeLinesAsComprehension` | speech.py:34-37 | The entries are exactly the stripped forms of the lines that mention "phoneme" in any letter case, in line order. |
| `Speech.PhonemeLinesAppend` | speech.py:35-37 | Collecting distributes over concatenation of the lines. |
| `Speech.PhonemeLinesOfOne` | speech.py:36-37 | A single line is taken, stripped, exactly when its lower-cased form contains "phoneme". |
| `Speech.PhonemeLinesAreStrippedMentions` | speech.py:36-37 | Every entry is already stripped and itself still mentions "phoneme". |
| `Speech.MentionSurvivesStrip` | speech.py:36-37 | A line mentions "phoneme" exactly when its stripped form does. |
| `Speech.MfaPhonemes` | speech.py:16-41 | A missing file gives the empty list, and so does a file without "intervals". Otherwise the result is the phoneme lines of the text from the first "intervals" on, split with `splitlines`: at most one per line, each already stripped and still mentioning "phoneme". |
| `Speech.ReadMfaPhonemes` | speech.py:16-41 | The loop returns exactly `MfaPhonemes` of the file. |
| `Speech.TextBeforeIntervalsIgnored` | speech.py:25-31 | Text before the first "intervals" can be replaced without changing the result. |

## Left out

- Whisper transcription (`apfg.py:27-33`, the script part of `whisper_run.py`): a foreign model call with no visible logic. `Evaluate` takes the grammar issue count and the parsed TextGrid as inputs in its place.
- The LanguageTool HTTP request and the printing of issues (`apfg.py:38-54`): a network call and console output. Only the issue count enters `GrammarScore`.
- The Tkinter file picker, corpus staging and the MFA subprocess (`apfg.py:17-24`, `apfg.py:61-87`): UI, filesystem and process I/O.
- Parsing a TextGrid file with the `textgrid` library: that library is not part of this model. `os.path.exists` becomes an `Option`.
- Apfg.AnalyzeAlignment: requires at least two tiers when the TextGrid is present. The source raises `IndexError` otherwise, and that crash is not modelled. The same holds for `Apfg.PhonemeWiseScores` and `Apfg.Evaluate`.
- `fluency.py` as a whole: top-level script code that divides by wall-clock time and writes to a fixed path.
- IEEE-754 floating point: durations and scores are exact reals. Rounding at the boundaries is not reproduced. For example, a phone from 0.35 s to 0.55 s lasts `0.20000000000000007` s in double arithmetic, so `long_phones` (apfg.py:107) counts it, while the model computes exactly 0.2 and does not. A phone from 0.01 s to 0.07 s lasts `0.060000000000000005` s and scores just under 100 in the source, while the model gives exactly 100.
- Printing and formatting (`:.2f`, console messages), and the hard-coded Windows paths of the script part of `speech.py` (`speech.py:45-46`).
- The average computed at `apfg.py:144-148` is printed and then discarded; it is the same value as `Mean` of the returned scores.
- File decoding: `Speech.ReadReferenceText` and `Speech.ReadMfaPhonemes` take the decoded contents. The universal-newline translation of text mode has already happened, so iterating over a file is a split at `"\n"`, as in `Text.FileLines`. For `read_mfa_phonemes` the decoding cannot fail: `speech.py:21` opens the file with `errors="ignore"`, so invalid UTF-8 bytes are dropped before the model's input.
- Speech.ReadReferenceText: a reference file that is not valid UTF-8 is not modelled. `speech.py:8` opens it with `encoding="utf-8"` and no `errors=` argument, and the `except` at `speech.py:11` catches only `FileNotFoundError`. Such a file raises an uncaught `UnicodeDecodeError` in the source, while the model only ever receives decoded text.
- Text.SplitLines: a `"\r\n"` pair counts as two breaks, not one, so it yields an extra empty line. An empty line never mentions "phoneme", so `Speech.ReadMfaPhonemes` is unaffected.
- Text.LowerChar, Text.Lower: lower-case ASCII letters only, while Python's `str.lower()` also lower-cases other letters ('Ä' becomes 'ä'). No other character lower-cases to an ASCII letter of "phoneme", so whether a line mentions "phoneme" is unaffected. The lower-cased form is only tested, never returned.
- Text.IsSpace: the whitespace set is Python's `str.isspace` set, written out by code point. Unicode character database updates are not tracked.

=== FILE: apfg.dfy ===
/** Scoring of a forced alignment and of a grammar check: the grammar score
    from an issue count, fluency from the word tier, accuracy and the
    per-phone pronunciation scores from the phone tier, and the evaluation
    that puts the four together. Durations and scores are exact reals. */
module Apfg {
  import opened Wrappers
  import opened Seqs
  import opened Text

  /** One labelled interval of a TextGrid tier. */
  datatype Interval = Interval(mark: string, minTime: real, maxTime: real)

  type Tier = seq<Interval>

  /** A parsed TextGrid: tier 0 holds the words, tier 1 the phones. */
  datatype TextGrid = TextGrid(tiers: seq<Tier>)

  predicate HasWordAndPhoneTiers(tg: TextGrid)
  {
    |tg.tiers| >= 2
  }

  const PointsPerIssue: int := 5
  const SlowWordSeconds: real := 1.5
  const LongPhoneSeconds: real := 0.2
  const IdealPhoneSeconds: real := 0.06
  const PhoneToleranceSeconds: real := 0.1

  function Duration(iv: Interval): real
  {
    iv.maxTime - iv.minTime
  }

  function Abs(x: real): real
  {
    if x < 0.0 then -x else x
  }

  function MaxReal(a: real, b: real): real
  {
    if a < b then b else a
  }

  // ---------------------------------------------------------------------------
  // Grammar

  /** Five points off per grammar issue, never below zero. */
  function GrammarScore(numErrors: nat): (r: int)
    ensures 0 <= r <= 100
    ensures r == 100 <==> numErrors == 0
    ensures r == 0 <==> numErrors >= 20
    ensures numErrors < 20 ==> r + PointsPerIssue * numErrors == 100
  {
    var raw := 100 - numErrors * PointsPerIssue;
    if raw < 0 then 0 else raw
  }

  /** More issues never give a better grammar score. */
  lemma GrammarScoreAntitone(m: nat, n: nat)
    requires m <= n
    ensures GrammarScore(n) <= GrammarScore(m)
  {
  }

  // ---------------------------------------------------------------------------
  // Word tier: fluency

  /** A word interval counts when its stripped mark is not empty; the silence
      marks "sil" and "sp" are NOT excluded on this tier. */
  predicate IsCountedWord(w: Interval)
  {
    Strip(w.mark) != ""
  }

  predicate IsSlowWord(w: Interval)
  {
    IsCountedWord(w) && Duration(w) > SlowWordSeconds
  }

  lemma CountedWordHasText(w: Interval)
    ensures IsCountedWord(w) <==> exists k :: 0 <= k < |w.mark| && !IsSpace(w.mark[k])
  {
  }

  function TotalWords(words: Tier): (r: nat)
    ensures r <= |words|
  {
    |Filter(words, IsCountedWord)|
  }

  /** The count is zero exactly when no interval of the tier is counted. */
  lemma NoCountedWords(words: Tier)
    ensures TotalWords(words) == 0 <==> forall k :: 0 <= k < |words| ==> !IsCountedWord(words[k])
  {
    FilterEmpty(words, IsCountedWord);
  }

  function SlowWords(words: Tier): (r: nat)
    ensures r <= TotalWords(words)
  {
    FilterStrongerIsShorter(words, IsCountedWord, IsSlowWord);
    |Filter(words, IsSlowWord)|
  }

  /** The share of good units as a percentage, and 0 when nothing was counted. */
  function PercentGood(bad: nat, total: nat): (r: real)
    ensures 0.0 <= r <= 100.0
    ensures total == 0 ==> r == 0.0
    ensures 0 < total && bad == 0 ==> r == 100.0
    ensures 0 < total && bad >= total ==> r == 0.0
    ensures 0 < total && bad <= total ==> r == 100.0 * (total - bad) as real / total as real
  {
    if total == 0 then 0.0
    else
      var t := total as real;
      var share := bad as real / t * 100.0;
      assert bad <= total ==> share <= 100.0 by {
        assert share * t == bad as real * 100.0;
      }
      assert bad >= total ==> share >= 100.0 by {
        assert share * t == bad as real * 100.0;
      }
      MaxReal(0.0, 100.0 - share)
  }

  /** More bad units out of the same total never give a better percentage. */
  lemma {:induction false} PercentGoodAntitone(bad1: nat, bad2: nat, total: nat)
    requires bad1 <= bad2
    ensures PercentGood(bad2, total) <= PercentGood(bad1, total)
  {
    if total > 0 {
      var t := total as real;
      assert bad1 as real / t <= bad2 as real / t by {
        assert bad1 as real / t * t <= bad2 as real / t * t;
      }
    }
  }

  function Fluency(words: Tier): (r: real)
    ensures 0.0 <= r <= 100.0
    ensures TotalWords(words) == 0 ==> r == 0.0
    ensures TotalWords(words) > 0 && SlowWords(words) == 0 ==> r == 100.0
    ensures TotalWords(words) > 0 && SlowWords(words) == TotalWords(words) ==> r == 0.0
    ensures TotalWords(words) > 0 ==>
              r == 100.0 * (TotalWords(words) - SlowWords(words)) as real / TotalWords(words) as real
  {
    PercentGood(SlowWords(words), TotalWords(words))
  }

  // ---------------------------------------------------------------------------
  // Phone tier: accuracy and pronunciation

  predicate IsSilenceMark(mark: string)
  {
    mark == "" || mark == "sil" || mark == "sp"
  }

  /** A phone interval counts when its stripped mark is not "", "sil" or "sp". */
  predicate IsCountedPhone(p: Interval)
  {
    !IsSilenceMark(Strip(p.mark))
  }

  predicate IsLongPhone(p: Interval)
  {
    Duration(p) > LongPhoneSeconds && IsCountedPhone(p)
  }

  function TotalPhones(phones: Tier): (r: nat)
    ensures r <= |phones|
  {
    |Filter(phones, IsCountedPhone)|
  }

  /** The count is zero exactly when no interval of the tier is counted. */
  lemma NoCountedPhones(phones: Tier)
    ensures TotalPhones(phones) == 0 <==> forall k :: 0 <= k < |phones| ==> !IsCountedPhone(phones[k])
  {
    FilterEmpty(phones, IsCountedPhone);
  }

  function LongPhones(phones: Tier): (r: nat)
    ensures r <= TotalPhones(phones)
  {
    FilterStrongerIsShorter(phones, IsCountedPhone, IsLongPhone);
    |Filter(phones, IsLongPhone)|
  }

  function Accuracy(phones: Tier): (r: real)
    ensures 0.0 <= r <= 100.0
    ensures TotalPhones(phones) == 0 ==> r == 0.0
    ensures TotalPhones(phones) > 0 && LongPhones(phones) == 0 ==> r == 100.0
    ensures TotalPhones(phones) > 0 && LongPhones(phones) == TotalPhones(phones) ==> r == 0.0
    ensures TotalPhones(phones) > 0 ==>
              r == 100.0 * (TotalPhones(phones) - LongPhones(phones)) as real / TotalPhones(phones) as real
  {
    PercentGood(LongPhones(phones), TotalPhones(phones))
  }

  /** Fluency and accuracy of the TextGrid, or (0, 0) when it is missing. */
  function AnalyzeAlignment(tg: Option<TextGrid>): (r: (real, real))
    requires tg.Some? ==> HasWordAndPhoneTiers(tg.value)
    ensures 0.0 <= r.0 <= 100.0 && 0.0 <= r.1 <= 100.0
    ensures tg.None? ==> r == (0.0, 0.0)
    ensures tg.Some? ==> r == (Fluency(tg.value.tiers[0]), Accuracy(tg.value.tiers[1]))
  {
    match tg
    case None => (0.0, 0.0)
    case Some(g) => (Fluency(g.tiers[0]), Accuracy(g.tiers[1]))
  }

  /** The score of one phone: 100 at the ideal 0.06 s, falling linearly to 0
      at a deviation of 0.1 s either way, and 0 beyond. */
  function PhoneScore(duration: real): (r: real)
    ensures 0.0 <= r <= 100.0
    ensures r == 100.0 <==> duration == IdealPhoneSeconds
    ensures r == 0.0 <==> Abs(duration - IdealPhoneSeconds) >= PhoneToleranceSeconds
    ensures Abs(duration - IdealPhoneSeconds) < PhoneToleranceSeconds ==>
              r == 100.0 - Abs(duration - IdealPhoneSeconds) * 1000.0
  {
    var diff := Abs(duration - IdealPhoneSeconds);
    MaxReal(0.0, 1.0 - diff / PhoneToleranceSeconds) * 100.0
  }

  /** A duration closer to the ideal never scores lower. */
  lemma PhoneScoreCloserIsBetter(d1: real, d2: real)
    requires Abs(d1 - IdealPhoneSeconds) <= Abs(d2 - IdealPhoneSeconds)
    ensures PhoneScore(d2) <= PhoneScore(d1)
  {
  }

  /** The scores `phoneme_wise_scores` emits for a phone tier. */
  function PhoneScores(phones: Tier): (r: seq<real>)
    ensures |r| == TotalPhones(phones)
  {
    if phones == [] then []
    else
      var init := phones[..|phones| - 1];
      var p := phones[|phones| - 1];
      PhoneScores(init) + (if IsCountedPhone(p) then [PhoneScore(Duration(p))] else [])
  }

  /** One score per counted phone, in tier order: the k-th score is the score
      of the k-th phone that is not silence. */
  lemma {:induction false} PhoneScoresAt(phones: Tier, k: nat)
    requires k < TotalPhones(phones)
    ensures PhoneScores(phones)[k] == PhoneScore(Duration(Filter(phones, IsCountedPhone)[k]))
  {
    var init := phones[..|phones| - 1];
    if k < TotalPhones(init) {
      PhoneScoresAt(init, k);
    }
  }

  lemma {:induction false} PhoneScoresBounded(phones: Tier)
    ensures forall k :: 0 <= k < |PhoneScores(phones)| ==> 0.0 <= PhoneScores(phones)[k] <= 100.0
  {
    if phones != [] {
      PhoneScoresBounded(phones[..|phones| - 1]);
    }
  }

  /** One more phone of the tier adds its score, unless it is silence. */
  lemma PhoneScoresStep(phones: Tier, i: nat)
    requires i < |phones|
    ensures PhoneScores(phones[..i + 1]) ==
              PhoneScores(phones[..i]) + (if IsCountedPhone(phones[i]) then [PhoneScore(Duration(phones[i]))] else [])
  {
    assert phones[..i + 1][..i] == phones[..i];
  }

  /** `phoneme_wise_scores`: walks the phone tier, skips silence, and appends
      the score of every other phone; the empty list when the TextGrid is missing. */
  method PhonemeWiseScores(tg: Option<TextGrid>) returns (scores: seq<real>)
    requires tg.Some? ==> HasWordAndPhoneTiers(tg.value)
    ensures tg.None? ==> scores == []
    ensures tg.Some? ==> scores == PhoneScores(tg.value.tiers[1])
    ensures forall k :: 0 <= k < |scores| ==> 0.0 <= scores[k] <= 100.0
  {
    if tg.None? {
      return [];
    }
    var phoneTier := tg.value.tiers[1];
    scores := [];
    for i := 0 to |phoneTier|
      invariant scores == PhoneScores(phoneTier[..i])
    {
      var p := phoneTier[i];
      var mark := Strip(p.mark);
      var duration := p.maxTime - p.minTime;
      if IsSilenceMark(mark) {
        PhoneScoresStep(phoneTier, i);
        continue;
      }
      var diff := Abs(duration - IdealPhoneSeconds);
      var score := MaxReal(0.0, 1.0 - diff / PhoneToleranceSeconds);
      var percent := score * 100.0;
      assert percent == PhoneScore(Duration(p));
      PhoneScoresStep(phoneTier, i);
      scores := scores + [percent];
    }
    assert phoneTier[..|phoneTier|] == phoneTier;
    PhoneScoresBounded(phoneTier);
  }

  /** Dividing a value between 0 and n * hi by n > 0 gives a value between 0 and hi. */
  lemma QuotientBounds(x: real, n: real, hi: real)
    requires n > 0.0 && 0.0 <= x <= n * hi
    ensures 0.0 <= x / n <= hi
  {
    var q := x / n;
    assert q * n == x;
    if q > hi {
      assert q * n > hi * n;
    }
  }

  /** The arithmetic mean, and 0 for the empty list. */
  function Mean(s: seq<real>): (r: real)
    ensures (forall k :: 0 <= k < |s| ==> 0.0 <= s[k] <= 100.0) ==> 0.0 <= r <= 100.0
    ensures s == [] ==> r == 0.0
    ensures s != [] ==> r * |s| as real == Sum(s)
  {
    if s == [] then 0.0
    else
      var n := |s| as real;
      var r := Sum(s) / n;
      assert (forall k :: 0 <= k < |s| ==> 0.0 <= s[k] <= 100.0) ==> 0.0 <= r <= 100.0 by {
        if forall k :: 0 <= k < |s| ==> 0.0 <= s[k] <= 100.0 {
          SumBounds(s, 100.0);
          QuotientBounds(Sum(s), n, 100.0);
        }
      }
      r
  }

  /** With no score above 100, the mean is 100 exactly when there is a score
      and every score is 100. */
  lemma MeanAtCeiling(s: seq<real>)
    requires forall k :: 0 <= k < |s| ==> s[k] <= 100.0
    ensures Mean(s) == 100.0 <==> s != [] && forall k :: 0 <= k < |s| ==> s[k] == 100.0
  {
    if s != [] {
      var n := |s| as real;
      SumAtCeiling(s, 100.0);
      assert Mean(s) * n == Sum(s);
      assert Mean(s) == 100.0 <==> Sum(s) == n * 100.0;
    }
  }

  /** The pronunciation score of a phone tier is 100 exactly when the tier
      has a counted phone and every counted phone lasts the ideal 0.06 s. */
  lemma PronunciationPerfect(phones: Tier)
    ensures var counted := Filter(phones, IsCountedPhone);
      Mean(PhoneScores(phones)) == 100.0 <==>
        |counted| > 0 && forall k :: 0 <= k < |counted| ==> Duration(counted[k]) == IdealPhoneSeconds
  {
    var s := PhoneScores(phones);
    var counted := Filter(phones, IsCountedPhone);
    forall k | 0 <= k < |s|
      ensures s[k] == 100.0 <==> Duration(counted[k]) == IdealPhoneSeconds
    {
      PhoneScoresAt(phones, k);
    }
    PhoneScoresBounded(phones);
    MeanAtCeiling(s);
  }

  /** `evaluate`: the four scores in the source's order, from the number of
      grammar issues and the TextGrid, which may be missing. */
  method Evaluate(numErrors: nat, tg: Option<TextGrid>)
    returns (fluency: real, accuracy: real, phonemeScore: real, grammarScore: int)
    requires tg.Some? ==> HasWordAndPhoneTiers(tg.value)
    ensures 0.0 <= fluency <= 100.0 && 0.0 <= accuracy <= 100.0 && 0.0 <= phonemeScore <= 100.0
    ensures 0 <= grammarScore <= 100 && grammarScore == GrammarScore(numErrors)
    ensures (fluency, accuracy) == AnalyzeAlignment(tg)
    ensures tg.None? ==> fluency == 0.0 && accuracy == 0.0 && phonemeScore == 0.0
    ensures tg.Some? ==> phonemeScore == Mean(PhoneScores(tg.value.tiers[1]))
  {
    grammarScore := GrammarScore(numErrors);
    fluency, accuracy := AnalyzeAlignment(tg).0, AnalyzeAlignment(tg).1;
    var phonemeScores := PhonemeWiseScores(tg);
    phonemeScore := if |phonemeScores| > 0 then Sum(phonemeScores) / |phonemeScores| as real else 0.0;
    assert phonemeScore == Mean(phonemeScores);
  }

  // ---------------------------------------------------------------------------
  // Worked examples

  /** "hello" lasts 0.5 s and "world" 1.8 s. */
  const ExampleWords: Tier := [Interval("hello", 0.0, 0.5), Interval("world", 0.5, 2.3)]

  /** Silence, then a 0.06 s phone and a 0.24 s phone. */
  const ExamplePhones: Tier := [Interval("sil", 0.0, 0.1), Interval("k", 0.1, 0.16), Interval("ae", 0.16, 0.40)]

  lemma ExampleWordCounts()
    ensures TotalWords(ExampleWords) == 2 && SlowWords(ExampleWords) == 1
  {
    var hello, world := ExampleWords[0], ExampleWords[1];
    StripNoSpace("hello");
    StripNoSpace("world");
    assert IsCountedWord(hello) && IsCountedWord(world);
    assert !IsSlowWord(hello) && IsSlowWord(world);
    FilterOfThree(hello, world, world, IsCountedWord);
    FilterOfThree(hello, world, world, IsSlowWord);
  }

  /** One of two words is slow: fluency 50. */
  lemma FluencyExample()
    ensures Fluency(ExampleWords) == 50.0
  {
    ExampleWordCounts();
  }

  lemma ExamplePhonesCounted()
    ensures Filter(ExamplePhones, IsCountedPhone) == ExamplePhones[1..]
    ensures TotalPhones(ExamplePhones) == 2 && LongPhones(ExamplePhones) == 1
  {
    var sil, k, ae := ExamplePhones[0], ExamplePhones[1], ExamplePhones[2];
    StripNoSpace("sil");
    StripNoSpace("k");
    StripNoSpace("ae");
    assert !IsCountedPhone(sil) && IsCountedPhone(k) && IsCountedPhone(ae);
    assert !IsLongPhone(sil) && !IsLongPhone(k) && IsLongPhone(ae);
    FilterOfThree(sil, k, ae, IsCountedPhone);
    FilterOfThree(sil, k, ae, IsLongPhone);
  }

  /** One of two counted phones is long: accuracy 50. */
  lemma AccuracyExample()
    ensures Accuracy(ExamplePhones) == 50.0
  {
    ExamplePhonesCounted();
  }

  /** The 0.06 s phone scores 100 and the 0.24 s phone 0, the silence nothing. */
  lemma PhoneScoresExample()
    ensures PhoneScores(ExamplePhones) == [100.0, 0.0]
  {
    ExamplePhonesCounted();
    PhoneScoresAt(ExamplePhones, 0);
    PhoneScoresAt(ExamplePhones, 1);
  }

  /** The pronunciation score is the mean of 100 and 0. */
  lemma PronunciationExample()
    ensures Mean(PhoneScores(ExamplePhones)) == 50.0
  {
    PhoneScoresExample();
    var s: seq<real> := [100.0, 0.0];
    assert s[..1] == [100.0];
    assert s[..1][..0] == [];
    assert Sum(s) == 100.0;
    assert Mean(s) * 2.0 == 100.0;
  }

  /** No issues score 100 and five issues score 75. */
  lemma GrammarExample()
    ensures GrammarScore(0) == 100 && GrammarScore(5) == 75
  {
  }
}

=== FILE: seqs.dfy ===
/** Generic sequence helpers: the list comprehension with a filter and the built-in sum. */
module Seqs {

  /** `[x for x in s if p(x)]`. The recursion takes off the last element, the
      same shape as `Sum` and the loops' specification functions, so that
      `FilterAppend` and the comprehension lemmas can peel one element at a time. */
  function Filter<T(==)>(s: seq<T>, p: T -> bool): (r: seq<T>)
    ensures |r| <= |s|
    ensures forall x :: x in r ==> x in s && p(x)
    ensures forall x :: x in s && p(x) ==> x in r
  {
    if s == [] then []
    else Filter(s[..|s| - 1], p) + (if p(s[|s| - 1]) then [s[|s| - 1]] else [])
  }

  /** Filtering distributes over concatenation: what is kept keeps its order. */
  lemma {:induction false} FilterAppend<T>(a: seq<T>, b: seq<T>, p: T -> bool)
    ensures Filter(a + b, p) == Filter(a, p) + Filter(b, p)
    decreases |b|
  {
    if b == [] {
      assert a + b == a;
    } else {
      var b' := b[..|b| - 1];
      assert (a + b)[..|a + b| - 1] == a + b';
      FilterAppend(a, b', p);
    }
  }

  /** Filtering a short list keeps each element that passes, in order. */
  lemma FilterOfThree<T>(x: T, y: T, z: T, p: T -> bool)
    ensures Filter([x, y], p) == (if p(x) then [x] else []) + (if p(y) then [y] else [])
    ensures Filter([x, y, z], p) == Filter([x, y], p) + (if p(z) then [z] else [])
  {
    assert [x, y][..1] == [x];
    assert [x][..0] == [];
    assert [x, y, z][..2] == [x, y];
  }

  /** The filter keeps nothing exactly when no element passes. */
  lemma FilterEmpty<T>(s: seq<T>, p: T -> bool)
    ensures Filter(s, p) == [] <==> forall k :: 0 <= k < |s| ==> !p(s[k])
  {
    if Filter(s, p) != [] {
      var x := Filter(s, p)[0];
      assert x in Filter(s, p);
      var k :| 0 <= k < |s| && s[k] == x;
    } else {
      forall k | 0 <= k < |s|
        ensures !p(s[k])
      {
        assert s[k] in s;
      }
    }
  }

  /** A stronger filter keeps no more elements than a weaker one. */
  lemma {:induction false} FilterStrongerIsShorter<T>(s: seq<T>, p: T -> bool, q: T -> bool)
    requires forall x :: x in s && q(x) ==> p(x)
    ensures |Filter(s, q)| <= |Filter(s, p)|
  {
    if s != [] {
      var s' := s[..|s| - 1];
      assert forall x :: x in s' ==> x in s;
      FilterStrongerIsShorter(s', p, q);
    }
  }

  /** `[f(x) for x in s]`. */
  function Map<T, U>(s: seq<T>, f: T -> U): (r: seq<U>)
    ensures |r| == |s| && forall k :: 0 <= k < |s| ==> r[k] == f(s[k])
  {
    seq(|s|, k requires 0 <= k < |s| => f(s[k]))
  }

  /** Python's `sum` over a list of reals. The elements are added left to right,
      as Python does; only the recursion takes the last element off. */
  function Sum(s: seq<real>): real
  {
    if s == [] then 0.0 else Sum(s[..|s| - 1]) + s[|s| - 1]
  }

  /** Every element lies in [0, hi], so the sum lies in [0, |s| * hi]. */
  lemma {:induction false} SumBounds(s: seq<real>, hi: real)
    requires forall k :: 0 <= k < |s| ==> 0.0 <= s[k] <= hi
    ensures 0.0 <= Sum(s) <= |s| as real * hi
  {
    if s != [] {
      SumBounds(s[..|s| - 1], hi);
    }
  }

  /** With every element at most hi, the sum reaches |s| * hi only when every element is hi. */
  lemma {:induction false} SumAtCeiling(s: seq<real>, hi: real)
    requires forall k :: 0 <= k < |s| ==> s[k] <= hi
    ensures Sum(s) == |s| as real * hi <==> forall k :: 0 <= k < |s| ==> s[k] == hi
  {
    if s != [] {
      var s' := s[..|s| - 1];
      SumAtCeiling(s', hi);
      SumUpperBound(s', hi);
    }
  }

  lemma {:induction false} SumUpperBound(s: seq<real>, hi: real)
    requires forall k :: 0 <= k < |s| ==> s[k] <= hi
    ensures Sum(s) <= |s| as real * hi
  {
    if s != [] {
      SumUpperBound(s[..|s| - 1], hi);
    }
  }
}

=== FILE: speech.dfy ===
/** Reading the reference phones and scraping phoneme lines out of an
    aligner's TextGrid output. Each reader takes the file's contents, or None
    when the file does not exist. */
module Speech {
  import opened Wrappers
  import opened Seqs
  import opened Text

  const IntervalsKey: string := "intervals"
  const PhonemeKey: string := "phoneme"

  /** `read_reference_text`: one entry per line of the file, in order, each
      with the surrounding whitespace stripped; a missing file gives []. */
  method ReadReferenceText(file: Option<string>) returns (referencePhones: seq<string>)
    ensures file.None? ==> referencePhones == []
    ensures file.Some? ==> |referencePhones| == |FileLines(file.value)|
    ensures file.Some? ==> forall k :: 0 <= k < |referencePhones| ==>
              referencePhones[k] == Strip(FileLines(file.value)[k])
  {
    referencePhones := [];
    if file.Some? {
      var lines := FileLines(file.value);
      for i := 0 to |lines|
        invariant |referencePhones| == i
        invariant forall k :: 0 <= k < i ==> referencePhones[k] == Strip(lines[k])
      {
        referencePhones := referencePhones + [Strip(lines[i])];
      }
    }
  }

  /** A line is taken when its lower-cased form contains "phoneme". */
  predicate MentionsPhoneme(line: string)
  {
    Contains(Lower(line), PhonemeKey)
  }

  /** The stripped lines that mention "phoneme", in order. */
  function PhonemeLines(lines: seq<string>): (r: seq<string>)
    ensures |r| <= |lines|
  {
    if lines == [] then []
    else
      var line := lines[|lines| - 1];
      PhonemeLines(lines[..|lines| - 1]) + (if MentionsPhoneme(line) then [Strip(line)] else [])
  }

  /** Taking lines distributes over concatenation, so the taken lines keep
      the file's order. */
  lemma {:induction false} PhonemeLinesAppend(a: seq<string>, b: seq<string>)
    ensures PhonemeLines(a + b) == PhonemeLines(a) + PhonemeLines(b)
    decreases |b|
  {
    if b == [] {
      assert a + b == a;
    } else {
      var b' := b[..|b| - 1];
      assert (a + b)[..|a + b| - 1] == a + b';
      PhonemeLinesAppend(a, b');
    }
  }

  /** A single line is taken, stripped, exactly when it mentions "phoneme". */
  lemma PhonemeLinesOfOne(line: string)
    ensures PhonemeLines([line]) == if MentionsPhoneme(line) then [Strip(line)] else []
  {
    assert [line][..0] == [];
  }

  lemma PhonemeLinesStep(lines: seq<string>, i: nat)
    requires i < |lines|
    ensures PhonemeLines(lines[..i + 1]) ==
              PhonemeLines(lines[..i]) + (if MentionsPhoneme(lines[i]) then [Strip(lines[i])] else [])
  {
    assert lines[..i + 1][..i] == lines[..i];
  }

  /** The loop's result is the comprehension `[l.strip() for l in lines if
      'phoneme' in l.lower()]`: every line that mentions "phoneme" contributes
      its stripped form, in the order of the lines, and no other line does. */
  lemma {:induction false} PhonemeLinesAsComprehension(lines: seq<string>)
    ensures PhonemeLines(lines) == Map(Filter(lines, MentionsPhoneme), Strip)
  {
    if lines != [] {
      var init, line := lines[..|lines| - 1], lines[|lines| - 1];
      PhonemeLinesAsComprehension(init);
      var f := Filter(init, MentionsPhoneme);
      if MentionsPhoneme(line) {
        assert Map(f + [line], Strip) == Map(f, Strip) + [Strip(line)];
      } else {
        assert f + [] == f;
      }
    }
  }

  /** Every taken entry is a stripped line that itself still mentions "phoneme". */
  lemma {:induction false} PhonemeLinesAreStrippedMentions(lines: seq<string>)
    ensures forall k :: 0 <= k < |PhonemeLines(lines)| ==>
              Strip(PhonemeLines(lines)[k]) == PhonemeLines(lines)[k] && MentionsPhoneme(PhonemeLines(lines)[k])
  {
    if lines != [] {
      var line := lines[|lines| - 1];
      PhonemeLinesAreStrippedMentions(lines[..|lines| - 1]);
      if MentionsPhoneme(line) {
        StripIdempotent(line);
        MentionSurvivesStrip(line);
      }
    }
  }

  /** The whitespace `Strip` removes cannot be part of an occurrence of
      "phoneme", so a line mentions it exactly when its stripped form does. */
  lemma MentionSurvivesStrip(line: string)
    ensures MentionsPhoneme(Strip(line)) <==> MentionsPhoneme(line)
  {
    StripSurrounds(line);
    var i, j := StripStart(line), StripEnd(line);
    assert NoSpace(PhonemeKey);
    assert line[i..i + (j - i)] == Strip(line);
    ContainsIgnoresSurroundingSpace(line, PhonemeKey, i, j - i);
  }

  /** What `read_mfa_phonemes` returns for a file's contents: nothing for a
      missing file or a file without "intervals"; otherwise the phoneme lines
      of the text from the first "intervals" on, at most one per line, each
      stripped and still mentioning "phoneme". */
  function MfaPhonemes(file: Option<string>): (r: seq<string>)
    ensures file.None? ==> r == []
    ensures file.Some? && Find(file.value, IntervalsKey).None? ==> r == []
    ensures file.Some? && Find(file.value, IntervalsKey).Some? ==>
              |r| <= |SplitLines(file.value[Find(file.value, IntervalsKey).value..])|
    ensures forall k :: 0 <= k < |r| ==> Strip(r[k]) == r[k] && MentionsPhoneme(r[k])
  {
    match file
    case None => []
    case Some(content) =>
      match Find(content, IntervalsKey)
      case None => []
      case Some(start) =>
        PhonemeLinesAreStrippedMentions(SplitLines(content[start..]));
        PhonemeLines(SplitLines(content[start..]))
  }

  /** `read_mfa_phonemes`: finds the first "intervals", splits the rest of the
      file into lines and collects the stripped lines that mention "phoneme". */
  method ReadMfaPhonemes(file: Option<string>) returns (phonemes: seq<string>)
    ensures phonemes == MfaPhonemes(file)
  {
    phonemes := [];
    if file.None? {
      return;
    }
    var content := file.value;
    var phonemeStart := Find(content, IntervalsKey);
    if phonemeStart.None? {
      return;
    }
    var phonemeData := content[phonemeStart.value..];
    var phonemeLines := SplitLines(phonemeData);
    for i := 0 to |phonemeLines|
      invariant phonemes == PhonemeLines(phonemeLines[..i])
    {
      var line := phonemeLines[i];
      PhonemeLinesStep(phonemeLines, i);
      if Contains(Lower(line), PhonemeKey) {
        phonemes := phonemes + [Strip(line)];
      }
    }
    assert phonemeLines[..|phonemeLines|] == phonemeLines;
  }

  /** Only the text from the first "intervals" on is examined: whatever comes
      before it can be replaced without changing the result. */
  lemma TextBeforeIntervalsIgnored(before1: string, before2: string, rest: string)
    requires Find(before1 + rest, IntervalsKey) == Some(|before1|)
    requires Find(before2 + rest, IntervalsKey) == Some(|before2|)
    ensures MfaPhonemes(Some(before1 + rest)) == MfaPhonemes(Some(before2 + rest))
  {
    assert (before1 + rest)[|before1|..] == rest;
    assert (before2 + rest)[|before2|..] == rest;
  }
}

=== FILE: text.dfy ===
/** The Python string built-ins the scoring code relies on, as specified
    functions over `string` (a sequence of Unicode scalar values):
    `str.isspace`, `str.strip()`, `str.split()`, `re.split` on a character
    class, `str.splitlines()`, iteration over the lines of a text file,
    `str.lower()` and `str.find`. */
module Text {
  import opened Wrappers
  import opened Seqs

  /** Python's `str.isspace` on one character. */
  predicate IsSpace(c: char)
  {
    || ('\t' <= c <= '\r')              // \t \n \v \f \r
    || ('\U{1C}' <= c <= '\U{1F}')      // file, group, record and unit separators
    || c == ' ' || c == '\U{85}' || c == '\U{A0}' || c == '\U{1680}'
    || ('\U{2000}' <= c <= '\U{200A}')
    || c == '\U{2028}' || c == '\U{2029}' || c == '\U{202F}' || c == '\U{205F}' || c == '\U{3000}'
  }

  predicate AllSpace(s: string)
  {
    forall k :: 0 <= k < |s| ==> IsSpace(s[k])
  }

  predicate NoSpace(s: string)
  {
    forall k :: 0 <= k < |s| ==> !IsSpace(s[k])
  }

  /** The first index at or after `i` that does not hold whitespace. */
  function SkipSpace(s: string, i: nat): (j: nat)
    requires i <= |s|
    ensures i <= j <= |s| && forall k :: i <= k < j ==> IsSpace(s[k])
    ensures j == |s| || !IsSpace(s[j])
    decreases |s| - i
  {
    if i < |s| && IsSpace(s[i]) then SkipSpace(s, i + 1) else i
  }

  /** The least index `i`, down to `lo`, with only whitespace from `i` to `j`. */
  function SkipSpaceBack(s: string, lo: nat, j: nat): (i: nat)
    requires lo <= j <= |s|
    ensures lo <= i <= j && forall k :: i <= k < j ==> IsSpace(s[k])
    ensures i == lo || !IsSpace(s[i - 1])
    decreases j
  {
    if lo < j && IsSpace(s[j - 1]) then SkipSpaceBack(s, lo, j - 1) else j
  }

  /** Where the text that `Strip` keeps starts. */
  function StripStart(s: string): (i: nat)
    ensures i <= |s|
  {
    SkipSpace(s, 0)
  }

  /** Where the text that `Strip` keeps ends. */
  function StripEnd(s: string): (j: nat)
    ensures StripStart(s) <= j <= |s|
  {
    SkipSpaceBack(s, StripStart(s), |s|)
  }

  /** Python's `str.strip()` with no argument. */
  function Strip(s: string): (r: string)
    ensures |r| <= |s|
    ensures r == [] <==> AllSpace(s)
    ensures r != [] ==> !IsSpace(r[0]) && !IsSpace(r[|r| - 1])
  {
    var i, j := StripStart(s), StripEnd(s);
    assert AllSpace(s) ==> i == |s|;
    s[i..j]
  }

  /** `Strip` keeps a slice of `s` and removes whitespace, and only whitespace,
      from either side of it. */
  lemma StripSurrounds(s: string)
    ensures Strip(s) == s[StripStart(s)..StripEnd(s)]
    ensures AllSpace(s[..StripStart(s)]) && AllSpace(s[StripEnd(s)..])
  {
  }

  /** Text without whitespace is left as it is. */
  lemma StripNoSpace(s: string)
    requires NoSpace(s)
    ensures Strip(s) == s
  {
    assert StripStart(s) == 0;
    assert s[0..|s|] == s;
  }

  /** Stripping twice is stripping once. */
  lemma StripIdempotent(s: string)
    ensures Strip(Strip(s)) == Strip(s)
  {
    var r := Strip(s);
    if r != [] {
      assert StripStart(r) == 0;
      assert StripEnd(r) == |r|;
      assert r[0..|r|] == r;
    }
  }

  /** The number of characters of `s` for which `p` holds. It has the value of
      `|Filter(s, p)|`, but carries no membership contract, so the splitting
      lemmas below reason about a plain count instead of instantiating the
      quantified ensures of `Filter` at every prefix. */
  function CountWhere(s: string, p: char -> bool): nat
  {
    if s == [] then 0 else CountWhere(s[..|s| - 1], p) + (if p(s[|s| - 1]) then 1 else 0)
  }

  lemma {:induction false} CountWhereIsFilterLength(s: string, p: char -> bool)
    ensures CountWhere(s, p) == |Filter(s, p)|
  {
    if s != [] {
      CountWhereIsFilterLength(s[..|s| - 1], p);
    }
  }

  /** `re.split` on a pattern that matches exactly one character from a set:
      the pieces between separators, empty ones included. */
  function SplitOn(s: string, isSep: char -> bool): (r: seq<string>)
    ensures |r| == CountWhere(s, isSep) + 1
    ensures r[|r| - 1] == [] <==> s == [] || isSep(s[|s| - 1])
  {
    if s == [] then [[]]
    else
      var init := SplitOn(s[..|s| - 1], isSep);
      var c := s[|s| - 1];
      if isSep(c) then init + [[]]
      else init[..|init| - 1] + [init[|init| - 1] + [c]]
  }

  /** No piece contains a separator. */
  lemma {:induction false} SplitOnPiecesHaveNoSep(s: string, isSep: char -> bool)
    ensures forall k, j :: 0 <= k < |SplitOn(s, isSep)| && 0 <= j < |SplitOn(s, isSep)[k]| ==>
              !isSep(SplitOn(s, isSep)[k][j])
  {
    if s != [] {
      var init := SplitOn(s[..|s| - 1], isSep);
      SplitOnPiecesHaveNoSep(s[..|s| - 1], isSep);
      var r := SplitOn(s, isSep);
      forall k, j | 0 <= k < |r| && 0 <= j < |r[k]|
        ensures !isSep(r[k][j])
      {
        if k < |init| - 1 || isSep(s[|s| - 1]) {
          assert k < |init|;
          assert r[k] == init[k];
        } else if j < |init[|init| - 1]| {
          assert r[k][j] == init[|init| - 1][j];
        }
      }
    }
  }

  /** How one more character at the end changes the pieces. */
  lemma SplitOnSnoc(s: string, c: char, isSep: char -> bool)
    ensures var init := SplitOn(s, isSep);
      SplitOn(s + [c], isSep) ==
        if isSep(c) then init + [[]] else init[..|init| - 1] + [init[|init| - 1] + [c]]
  {
    assert (s + [c])[..|s + [c]| - 1] == s;
  }

  /** Splitting at a separator character splits the pieces the same way. */
  lemma {:induction false} SplitOnAtSeparator(a: string, c: char, b: string, isSep: char -> bool)
    requires isSep(c)
    ensures SplitOn(a + [c] + b, isSep) == SplitOn(a, isSep) + SplitOn(b, isSep)
    decreases |b|
  {
    if b == [] {
      assert a + [c] + b == a + [c];
      SplitOnSnoc(a, c, isSep);
    } else {
      var b', last := b[..|b| - 1], b[|b| - 1];
      assert b == b' + [last];
      assert a + [c] + b == (a + [c] + b') + [last];
      SplitOnAtSeparator(a, c, b', isSep);
      SplitOnSnoc(a + [c] + b', last, isSep);
      SplitOnSnoc(b', last, isSep);
      SnocCommutes(SplitOn(a, isSep), SplitOn(b', isSep), SplitOn(a + [c] + b', isSep),
                   SplitOn(a + [c] + b, isSep), SplitOn(b, isSep), last, isSep(last));
    }
  }

  /** Adding one character to the pieces of A + B' (B' non-empty) adds it to
      the pieces of B' alone. */
  lemma SnocCommutes(A: seq<string>, B': seq<string>, X: seq<string>, Y: seq<string>, Z: seq<string>,
                     last: char, sep: bool)
    requires B' != [] && X == A + B'
    requires Y == if sep then X + [[]] else X[..|X| - 1] + [X[|X| - 1] + [last]]
    requires Z == if sep then B' + [[]] else B'[..|B'| - 1] + [B'[|B'| - 1] + [last]]
    ensures Y == A + Z
  {
    if !sep {
      assert X[..|X| - 1] == A + B'[..|B'| - 1];
    }
  }

  /** Lines of `s` cut at `isBreak` characters, where a break that ends the
      text does not start one more (empty) line; the empty text has no lines. */
  function LinesBy(s: string, isBreak: char -> bool): (r: seq<string>)
    ensures |r| == CountWhere(s, isBreak) + (if s == [] || isBreak(s[|s| - 1]) then 0 else 1)
    ensures forall k, j :: 0 <= k < |r| && 0 <= j < |r[k]| ==> !isBreak(r[k][j])
  {
    var pieces := SplitOn(s, isBreak);
    SplitOnPiecesHaveNoSep(s, isBreak);
    if pieces[|pieces| - 1] == [] then pieces[..|pieces| - 1] else pieces
  }

  /** Text without separators is a single piece. */
  lemma {:induction false} SplitOnNoSep(l: string, isSep: char -> bool)
    requires forall j :: 0 <= j < |l| ==> !isSep(l[j])
    ensures SplitOn(l, isSep) == [l]
  {
    if l != [] {
      var l' := l[..|l| - 1];
      SplitOnNoSep(l', isSep);
      assert l' + [l[|l| - 1]] == l;
    }
  }

  /** The text made of the given lines, each followed by the character `c`. */
  function Terminated(lines: seq<string>, c: char): string
  {
    if lines == [] then [] else lines[0] + [c] + Terminated(lines[1..], c)
  }

  /** Splitting lines that each end in a separator gives the lines back,
      followed by the empty piece after the last separator. */
  lemma {:induction false} SplitOnTerminated(lines: seq<string>, c: char, isSep: char -> bool)
    requires isSep(c)
    requires forall k, j :: 0 <= k < |lines| && 0 <= j < |lines[k]| ==> !isSep(lines[k][j])
    ensures SplitOn(Terminated(lines, c), isSep) == lines + [[]]
  {
    if lines != [] {
      var l, rest := lines[0], lines[1..];
      assert forall k, j :: 0 <= k < |rest| && 0 <= j < |rest[k]| ==> rest[k][j] == lines[k + 1][j];
      SplitOnTerminated(rest, c, isSep);
      SplitOnNoSep(l, isSep);
      SplitOnAtSeparator(l, c, Terminated(rest, c), isSep);
      assert [l] + (rest + [[]]) == lines + [[]];
    }
  }

  /** Writing lines each followed by a break and cutting the text into lines
      gives the same lines back. */
  lemma LinesByTerminated(lines: seq<string>, c: char, isBreak: char -> bool)
    requires isBreak(c)
    requires forall k, j :: 0 <= k < |lines| && 0 <= j < |lines[k]| ==> !isBreak(lines[k][j])
    ensures LinesBy(Terminated(lines, c), isBreak) == lines
  {
    SplitOnTerminated(lines, c, isBreak);
    assert (lines + [[]])[..|lines|] == lines;
  }

  /** The characters at which Python's `str.splitlines()` ends a line. */
  predicate IsLineBreak(c: char)
  {
    || ('\n' <= c <= '\r')              // \n \v \f \r
    || ('\U{1C}' <= c <= '\U{1E}')
    || c == '\U{85}' || c == '\U{2028}' || c == '\U{2029}'
  }

  /** Python's `str.splitlines()`, with "\r\n" counted as two breaks. */
  function SplitLines(s: string): (r: seq<string>)
    ensures forall k, j :: 0 <= k < |r| && 0 <= j < |r[k]| ==> !IsLineBreak(r[k][j])
  {
    LinesBy(s, IsLineBreak)
  }

  predicate IsNewline(c: char)
  {
    c == '\n'
  }

  /** The lines that `for line in f` yields for a file opened in text mode,
      whose contents `s` Python has already read with its newlines
      translated to "\n"; each line here is without its "\n". */
  function FileLines(s: string): (r: seq<string>)
    ensures |r| == CountWhere(s, IsNewline) + (if s == [] || s[|s| - 1] == '\n' then 0 else 1)
    ensures forall k :: 0 <= k < |r| ==> '\n' !in r[k]
  {
    var r := LinesBy(s, IsNewline);
    assert forall k, j :: 0 <= k < |r| && 0 <= j < |r[k]| ==> r[k][j] != '\n';
    r
  }

  /** The lines of a file written line by line, each ending in "\n", are the
      lines that were written. */
  lemma FileLinesRoundTrip(lines: seq<string>)
    requires forall k :: 0 <= k < |lines| ==> '\n' !in lines[k]
    ensures FileLines(Terminated(lines, '\n')) == lines
  {
    forall k, j | 0 <= k < |lines| && 0 <= j < |lines[k]|
      ensures !IsNewline(lines[k][j])
    {
      assert lines[k][j] in lines[k];
    }
    LinesByTerminated(lines, '\n', IsNewline);
  }

  /** `splitlines` gives back lines joined with line breaks. */
  lemma SplitLinesRoundTrip(lines: seq<string>, c: char)
    requires IsLineBreak(c)
    requires forall k, j :: 0 <= k < |lines| && 0 <= j < |lines[k]| ==> !IsLineBreak(lines[k][j])
    ensures SplitLines(Terminated(lines, c)) == lines
  {
    LinesByTerminated(lines, c, IsLineBreak);
  }

  /** Python's `str.split()` with no argument: the maximal runs of
      non-whitespace characters, in order. */
  function Words(s: string): (r: seq<string>)
    ensures forall k :: 0 <= k < |r| ==> r[k] != [] && NoSpace(r[k])
    ensures s != [] && !IsSpace(s[0]) ==> r != [] && r[0][0] == s[0]
    ensures 2 * |r| <= |s| + 1
  {
    if s == [] then []
    else if IsSpace(s[0]) then Words(s[1..])
    else
      var rest := Words(s[1..]);
      if s[1..] != [] && !IsSpace(s[1]) then [[s[0]] + rest[0]] + rest[1..]
      else [[s[0]]] + rest
  }

  /** A whitespace character separates the words on its two sides. */
  lemma {:induction false} WordsAtSpace(a: string, c: char, b: string)
    requires IsSpace(c)
    ensures Words(a + [c] + b) == Words(a) + Words(b)
  {
    if a == [] {
      assert a + [c] + b == [c] + b;
      assert ([c] + b)[1..] == b;
    } else {
      var a' := a[1..];
      assert (a + [c] + b)[1..] == a' + [c] + b;
      WordsAtSpace(a', c, b);
    }
  }

  /** A non-empty run without whitespace is one word; whitespace alone is none. */
  lemma {:induction false} WordsOfOneRun(w: string)
    ensures w != [] && NoSpace(w) ==> Words(w) == [w]
    ensures AllSpace(w) ==> Words(w) == []
  {
    if w != [] {
      var w' := w[1..];
      WordsOfOneRun(w');
      if NoSpace(w) {
        assert NoSpace(w');
        if w' != [] {
          assert Words(w') == [w'];
          assert [w[0]] + w' == w;
        } else {
          assert w == [w[0]];
        }
      }
      if AllSpace(w) {
        assert AllSpace(w');
      }
    }
  }

  /** Python's `str.lower()`, restricted to ASCII letters. */
  function LowerChar(c: char): (r: char)
    ensures 'A' <= c <= 'Z' ==> 'a' <= r <= 'z'
    ensures 'A' <= c <= 'Z' ==> r as int == c as int + 32
    ensures !('A' <= c <= 'Z') ==> r == c
  {
    if 'A' <= c <= 'Z' then (c as int - 'A' as int + 'a' as int) as char else c
  }

  function Lower(s: string): (r: string)
    ensures |r| == |s|
    ensures forall k :: 0 <= k < |s| ==> r[k] == LowerChar(s[k])
  {
    seq(|s|, k requires 0 <= k < |s| => LowerChar(s[k]))
  }

  predicate OccursAt(s: string, pat: string, i: nat)
  {
    i + |pat| <= |s| && s[i..i + |pat|] == pat
  }

  /** Python's `s.find(pat, start)`: the least index at or after `start` where
      `pat` occurs, None where Python returns -1. */
  function FindFrom(s: string, pat: string, start: nat): (r: Option<nat>)
    requires start <= |s|
    ensures r.Some? ==> start <= r.value && OccursAt(s, pat, r.value)
    ensures r.Some? ==> forall j :: start <= j < r.value ==> !OccursAt(s, pat, j)
    ensures r.None? ==> forall j :: start <= j <= |s| ==> !OccursAt(s, pat, j)
    decreases |s| - start
  {
    if OccursAt(s, pat, start) then Some(start)
    else if start == |s| then None
    else FindFrom(s, pat, start + 1)
  }

  function Find(s: string, pat: string): (r: Option<nat>)
    ensures r.Some? ==> OccursAt(s, pat, r.value) && forall j :: 0 <= j < r.value ==> !OccursAt(s, pat, j)
    ensures r.None? ==> forall j :: 0 <= j <= |s| ==> !OccursAt(s, pat, j)
  {
    FindFrom(s, pat, 0)
  }

  /** Python's `pat in s`. */
  predicate Contains(s: string, pat: string)
    ensures Contains(s, pat) <==> exists j: nat :: OccursAt(s, pat, j)
  {
    var found := Find(s, pat);
    assert found.Some? ==> OccursAt(s, pat, found.value);
    found.Some?
  }

  /** Lower-casing works character by character, so it commutes with slicing. */
  lemma LowerInfix(s: string, i: nat, len: nat)
    requires i + len <= |s|
    ensures Lower(s[i..i + len]) == Lower(s)[i..i + len]
  {
  }

  /** Whitespace is left alone by lower-casing, so a character inside an
      occurrence of a whitespace-free pattern in Lower(s) is not whitespace. */
  lemma OccurrenceHasNoSpace(s: string, pat: string, j: nat, m: nat)
    requires NoSpace(pat) && OccursAt(Lower(s), pat, j)
    requires j <= m < j + |pat|
    ensures !IsSpace(s[m])
  {
    assert Lower(s)[j..j + |pat|][m - j] == pat[m - j];
  }

  /** An occurrence of a non-empty whitespace-free pattern in Lower(s) cannot
      reach into whitespace that surrounds s[i..i + len]. */
  lemma OccurrenceAvoidsSurroundingSpace(s: string, pat: string, j: nat, i: nat, len: nat)
    requires pat != [] && NoSpace(pat) && OccursAt(Lower(s), pat, j)
    requires i + len <= |s| && AllSpace(s[..i]) && AllSpace(s[i + len..])
    ensures i <= j && j + |pat| <= i + len
  {
    if j < i {
      assert IsSpace(s[..i][j]) && s[..i][j] == s[j];
      OccurrenceHasNoSpace(s, pat, j, j);
    } else if j + |pat| > i + len {
      var m := j + |pat| - 1;
      assert IsSpace(s[i + len..][m - (i + len)]) && s[i + len..][m - (i + len)] == s[m];
      OccurrenceHasNoSpace(s, pat, j, m);
    }
  }

  /** Occurrences inside a slice are occurrences in the whole, shifted. */
  lemma OccursInSlice(t: string, pat: string, i: nat, len: nat, j: nat)
    requires i + len <= |t| && j + |pat| <= len
    ensures OccursAt(t[i..i + len], pat, j) <==> OccursAt(t, pat, i + j)
  {
    var v := t[i..i + len][j..j + |pat|];
    assert forall k :: 0 <= k < |v| ==> v[k] == t[i + j + k];
    assert v == t[i + j..i + j + |pat|];
  }

  /** When every occurrence of the pattern lies inside a window, the window
      contains the pattern exactly when the whole text does. */
  lemma ContainsInWindow(t: string, pat: string, i: nat, len: nat)
    requires i + len <= |t|
    requires forall j: nat :: OccursAt(t, pat, j) ==> i <= j && j + |pat| <= i + len
    ensures Contains(t[i..i + len], pat) <==> Contains(t, pat)
  {
    if Contains(t, pat) {
      var j: nat :| OccursAt(t, pat, j);
      OccursInSlice(t, pat, i, len, j - i);
    }
    if Contains(t[i..i + len], pat) {
      var j: nat :| OccursAt(t[i..i + len], pat, j);
      OccursInSlice(t, pat, i, len, j);
    }
  }

  /** Whether the lower-cased text contains a non-empty whitespace-free
      pattern does not depend on whitespace around it. */
  lemma ContainsIgnoresSurroundingSpace(s: string, pat: string, i: nat, len: nat)
    requires pat != [] && NoSpace(pat)
    requires i + len <= |s| && AllSpace(s[..i]) && AllSpace(s[i + len..])
    ensures Contains(Lower(s[i..i + len]), pat) <==> Contains(Lower(s), pat)
  {
    LowerInfix(s, i, len);
    forall j: nat | OccursAt(Lower(s), pat, j)
      ensures i <= j && j + |pat| <= i + len
    {
      OccurrenceAvoidsSurroundingSpace(s, pat, j, i, len);
    }
    ContainsInWindow(Lower(s), pat, i, len);
  }
}

=== FILE: whisper_run.dfy ===
/** The sentence-based fluency heuristic: split a transcript into sentences,
    keep the non-trivial ones, count the run-on sentences and take them off
    a score out of 10. */
module WhisperRun {
  import opened Seqs
  import opened Text

  const MinSentenceLength: nat := 3
  const MaxWordsPerSentence: nat := 20
  const MaxFluency: nat := 10

  /** The single characters `re.split(r'\.|\?|\!|\n', ...)` splits at. */
  predicate IsSentenceEnd(c: char)
  {
    c == '.' || c == '?' || c == '!' || c == '\n'
  }

  /** The pieces of the transcript between sentence ends: one more piece
      than there are sentence-end characters, none containing one. */
  function Sentences(text: string): (r: seq<string>)
    ensures |r| == CountWhere(text, IsSentenceEnd) + 1
    ensures forall k, j :: 0 <= k < |r| && 0 <= j < |r[k]| ==> !IsSentenceEnd(r[k][j])
  {
    SplitOnPiecesHaveNoSep(text, IsSentenceEnd);
    SplitOn(text, IsSentenceEnd)
  }

  /** A piece is kept when it is longer than 3 characters once stripped. */
  predicate IsComplete(piece: string)
  {
    |Strip(piece)| > MinSentenceLength
  }

  /** `[s.strip() for s in pieces if len(s.strip()) > 3]`. */
  function CompleteSentences(pieces: seq<string>): (r: seq<string>)
    ensures |r| <= |pieces|
    ensures forall k :: 0 <= k < |r| ==> |r[k]| > MinSentenceLength
  {
    if pieces == [] then []
    else
      var last := pieces[|pieces| - 1];
      CompleteSentences(pieces[..|pieces| - 1]) + (if IsComplete(last) then [Strip(last)] else [])
  }

  /** Keeping distributes over concatenation, so kept sentences stay in the
      order of the transcript. */
  lemma {:induction false} CompleteSentencesAppend(a: seq<string>, b: seq<string>)
    ensures CompleteSentences(a + b) == CompleteSentences(a) + CompleteSentences(b)
    decreases |b|
  {
    if b == [] {
      assert a + b == a;
    } else {
      var b' := b[..|b| - 1];
      assert (a + b)[..|a + b| - 1] == a + b';
      CompleteSentencesAppend(a, b');
    }
  }

  /** Kept sentences are the stripped complete pieces, in the order of the pieces. */
  lemma {:induction false} CompleteSentencesAsComprehension(pieces: seq<string>)
    ensures CompleteSentences(pieces) == Map(Filter(pieces, IsComplete), Strip)
  {
    if pieces != [] {
      var init, last := pieces[..|pieces| - 1], pieces[|pieces| - 1];
      CompleteSentencesAsComprehension(init);
      var f := Filter(init, IsComplete);
      if IsComplete(last) {
        assert Map(f + [last], Strip) == Map(f, Strip) + [Strip(last)];
      } else {
        assert f + [] == f;
      }
    }
  }

  /** A single piece is kept, stripped, exactly when its stripped length exceeds 3. */
  lemma CompleteSentencesOfOne(piece: string)
    ensures CompleteSentences([piece]) == if |Strip(piece)| > MinSentenceLength then [Strip(piece)] else []
  {
    assert [piece][..0] == [];
  }

  /** A kept sentence is a run-on when it has more than 20 words. */
  predicate IsRunOn(sentence: string)
    ensures IsRunOn(sentence) ==> |sentence| > 2 * MaxWordsPerSentence
  {
    |Words(sentence)| > MaxWordsPerSentence
  }

  predicate NoRunOn(sentences: seq<string>)
  {
    forall k :: 0 <= k < |sentences| ==> !IsRunOn(sentences[k])
  }

  function RunOnCount(sentences: seq<string>): (r: nat)
    ensures r <= |sentences|
    ensures r == 0 <==> NoRunOn(sentences)
  {
    var runOns := Filter(sentences, IsRunOn);
    assert NoRunOn(sentences) ==> runOns == [] by {
      if runOns != [] {
        assert runOns[0] in sentences;
      }
    }
    |runOns|
  }

  /** `10 - min(run_ons, 10)`. */
  function ScoreFromRunOns(runOns: nat): (r: int)
    ensures 0 <= r <= MaxFluency
    ensures r == MaxFluency <==> runOns == 0
    ensures r == 0 <==> runOns >= MaxFluency
    ensures runOns < MaxFluency ==> r + runOns == MaxFluency
  {
    MaxFluency - (if runOns < MaxFluency then runOns else MaxFluency)
  }

  /** More run-on sentences never give a better score. */
  lemma ScoreFromRunOnsAntitone(m: nat, n: nat)
    requires m <= n
    ensures ScoreFromRunOns(n) <= ScoreFromRunOns(m)
  {
  }

  /** `rate_fluency`: a score out of 10 that is 10 exactly when no kept
      sentence is a run-on. */
  function RateFluency(text: string): (r: int)
    ensures 0 <= r <= MaxFluency
    ensures r == MaxFluency <==> NoRunOn(CompleteSentences(Sentences(text)))
    ensures r == 0 <==> RunOnCount(CompleteSentences(Sentences(text))) >= MaxFluency
  {
    var sentences := Sentences(text);
    var completeSentences := CompleteSentences(sentences);
    var runOnSentences := RunOnCount(completeSentences);
    ScoreFromRunOns(runOnSentences)
  }

  /** An empty transcript has no run-on sentence and scores 10. */
  lemma RateFluencyEmpty()
    ensures RateFluency("") == MaxFluency
  {
    assert Sentences("") == [""];
    CompleteSentencesOfOne("");
  }

  /** The run-on sentences of two transcripts joined at a sentence end are
      those of the two parts together. */
  lemma RunOnsAtSentenceEnd(a: string, c: char, b: string)
    requires IsSentenceEnd(c)
    ensures RunOnCount(CompleteSentences(Sentences(a + [c] + b)))
            == RunOnCount(CompleteSentences(Sentences(a))) + RunOnCount(CompleteSentences(Sentences(b)))
  {
    SplitOnAtSeparator(a, c, b, IsSentenceEnd);
    CompleteSentencesAppend(Sentences(a), Sentences(b));
    FilterAppend(CompleteSentences(Sentences(a)), CompleteSentences(Sentences(b)), IsRunOn);
  }

  /** Appending more sentences to a transcript never raises its score. */
  lemma RateFluencyMoreSentences(a: string, c: char, b: string)
    requires IsSentenceEnd(c)
    ensures RateFluency(a + [c] + b) <= RateFluency(a)
    ensures RateFluency(a + [c] + b) <= RateFluency(b)
  {
    RunOnsAtSentenceEnd(a, c, b);
    var n := RunOnCount(CompleteSentences(Sentences(a + [c] + b)));
    ScoreFromRunOnsAntitone(RunOnCount(CompleteSentences(Sentences(a))), n);
    ScoreFromRunOnsAntitone(RunOnCount(CompleteSentences(Sentences(b))), n);
  }
}

=== FILE: wrappers.dfy ===
/** Optional values: a file or artifact that may be missing, a search that may fail. */
module Wrappers {

  datatype Option<+T> = None | Some(value: T)
}
